=== FILE: README.md ===
# EIDA dataselect collector — a Dafny model

This project models the request core of the EIDA dataselect collector
(`server.js`): a gateway that takes one `/router` request with a `start` and
`end` time, asks the EIDA routing service which datacenters hold the data,
expands the answer into one backend URL per channel selector, fetches those
URLs with a pool of at most twenty concurrent slots, and answers the client with
the concatenated miniSEED bytes of every successful fetch.

Modules, in pipeline order:

- `Gate` — the first handler's checks: `Date.parse` of `start` then `end`
  (each failure with its own 400 message), then the routing service's status
  (204 passed on, other non-200 statuses answered 400 with the upstream body).
  `Date.parse` is a parameter `parses: string -> bool`; an absent query value
  is `undefined` and never parses.
- `Routing` — the decoded routing document (`Datacenter`, `Selector`), the
  URL built for one selector (`RequestUrl`), the expansion as a reference
  function (`Expand`) and the source's nested loop (`CollectRequests`).
- `Urls` — `parseUrl`, total over all strings: `None` where the source throws,
  the source's own odd answer (empty host) where no `/` follows the host.
- `Buffers` — each response's `tempBuffer`, filled chunk by chunk, and the
  append to the shared `fullBuffer`, both as written and corrected (see Findings).
- `Pool` — the second handler as a state machine. State: the remaining list
  (a stack: `pop()` takes the last request), the slots (`threads`), the
  buffer, the claimed suffix of the list, and the reply once sent. Each
  callback runs atomically in JavaScript, so one event is "the fetch in slot
  i ended with this outcome", and any busy slot may be the next to finish.
  `Finish`/`Run` use the corrected append; `FinishAsWritten`/`RunAsWritten`
  use the source's, which can crash the process (see Findings).
- `Collector` — both handlers composed, and the end-to-end results.
- `Text`, `Replies`, `Common` — `indexOf`/`split`/`join` on strings, the
  reply type and fixed texts, and `Option`/`Min`.

The pool results assume no routed URL is the empty string (an empty string is
falsy, so `getRequest` would pop it and leave its slot marked busy forever);
`Routing.ExpandNonEmpty` proves that every expanded URL is non-empty, and
`Collector.EndToEnd` uses that to state the pool results for every routing
answer. With zero routed requests the source opens no slot and never replies;
the model states this as it is (`Pool.NoRequestsNeverReply`).

## Model

| member | source | states |
|---|---|---|
| `Gate.CheckWindow` | server.js:46-53 | an invalid start gives 400 "Start time is invalid." whatever the end; only a valid start with an invalid end gives 400 "End time is invalid."; otherwise the raw strings pass through, with no ordering check |
| `Gate.Route` | server.js:84-88 | routing status 204 gives 204, any other non-200 status gives 400 "Could not fetch request info: " followed by the body, and only 200 proceeds |
| `Collector.Handle` | server.js:46-110 | the pool starts exactly when the window is valid and the routing status is 200, and it starts on the expansion of the document with the raw start and end strings |
| `Collector.BadWindowSkipsRouting` | server.js:46-53 | with an invalid start or end the answer is the same for every routing answer, so the routing request is never made |
| `Collector.RoutingStatusPassThrough` | server.js:84-88 | with a valid window a non-200 routing status is answered without looking at the document |
| `Routing.RequestUrlShape` | server.js:105 | a request URL begins with the datacenter URL, is longer than it, and is the `&`-join of the six pieces base?net=, sta=, loc=, cha=, start=, end= |
| `Routing.RequestUrlFields` | server.js:105 | when no field contains `&`, splitting the URL on `&` gives back exactly those six pieces in order |
| `Routing.Expand` | server.js:94-108 | the expansion has one URL per selector over all datacenters |
| `Routing.ExpandAt` | server.js:94-108 | selector j of datacenter i yields the URL at position Offset(i) + j, datacenter-major then by parameter index |
| `Routing.ExpandLocate` | server.js:94-108 | every position of the expansion comes from some selector of some datacenter, so the expansion holds nothing else |
| `Routing.ExpandNonEmpty` | server.js:170-171 | no expanded URL is empty, so `if(!requestedUrl)` never fires on a popped URL |
| `Routing.CollectRequests` | server.js:94-108 | the source's nested loop computes exactly the expansion |
| `Text.Find` | server.js:129 | `indexOf` returns the first index where the pattern occurs, or nothing when it occurs nowhere |
| `Urls.AfterScheme` | server.js:128 | `split("http://")[1]` is absent exactly when "http://" does not occur; otherwise it is the text that starts right after the first "http://" and runs to the end of the URL or to the next "http://", and it never contains "http://" itself |
| `Urls.ParseUrl` | server.js:126-137 | absent exactly where the source throws; otherwise host followed by path rebuilds `split("http://")[1]`, the host has no "/", a path containing "/" starts with it, and a path without any "/" comes with an empty host |
| `Urls.WellSplitUnique` | server.js:129-130 | a text has at most one reading as a slash-free host followed by a path that starts with "/" (or, holding no "/", comes with an empty host) |
| `Urls.ParseUrlUnique` | server.js:126-137 | those properties determine the parse: any such host and path rebuilding `split("http://")[1]` are exactly what `parseUrl` returns |
| `Urls.ParseUrlRoundTrip` | server.js:126-137 | "http://" + h + p with a slash-free h and p starting with "/" parses to host h and path p, when no further "http://" follows the scheme (line 128 cuts the text there) |
| `Urls.ParseRequestUrl` | server.js:126-137 | a URL expanded from a base "http://h/path" is fetched from host h with the base's path followed by the query, when no further "http://" follows the scheme (line 128 cuts the text there) |
| `Urls.ParseUrlWithoutPath` | server.js:129-130 | with no "/" after the host the source yields an empty host and the host name as path |
| `Buffers.Receive` | server.js:207-211 | the first chunk starts tempBuffer and later chunks are appended after it |
| `Buffers.ReceiveAll` | server.js:207-211 | tempBuffer is absent exactly when no chunk came, and otherwise holds all chunks' bytes in order |
| `Buffers.Append` | server.js:224-226 | the corrected append: the buffer's bytes grow by exactly the response's bytes, and the buffer stays absent only while nothing was added |
| `Buffers.EmptyOkBodyThrows` | server.js:224-226 | a 200 response without a body after bytes were buffered makes the source's append throw, where the corrected append keeps the buffer |
| `Buffers.AppendAsWrittenAgrees` | server.js:224-226 | the source's append throws exactly when the buffer is set and the response brought no bytes, and otherwise equals the corrected append |
| `Pool.Claim` | server.js:164-173 | `getRequest` pops the last remaining request, so the list shrinks by one and the claimed suffix grows by it; on an empty list or a falsy URL the slot stays marked busy with nothing in flight |
| `Pool.Open` | server.js:157-161 | after k turns of the start loop there are k slots, slot i holds the i-th request from the end, and the last k requests are claimed |
| `Pool.Start` | server.js:143-161 | the pool has min(20, number of routed requests) slots, each with one initial claim from the end of the list, and nothing buffered or sent |
| `Pool.Finish` | server.js:204-277 | with the corrected append, a finished fetch adds its 200 body to the buffer, re-claims only while the list is non-empty, leaves other slots alone, and replies only when the list is empty and every slot is idle, with 204 for an empty buffer and the miniSEED bytes otherwise |
| `Pool.StartConsistent` | server.js:148-161 | the started pool satisfies the pool invariant: claimed plus remaining is the routed list and no reply is sent |
| `Pool.StartFetching` | server.js:157-173 | with non-empty URLs every started slot is fetching its own request, and pending work equals the number of routed requests |
| `Pool.FinishConsistent` | server.js:249-277 | one finished fetch keeps the pool invariant |
| `Pool.FinishPending` | server.js:249-257 | with non-empty URLs one finished fetch removes exactly one request from the pending work |
| `Pool.FinishInFlight` | server.js:249-257 | the finished URL leaves the in-flight set and a re-claimed URL joins it |
| `Pool.RunConsistent` | server.js:249-277 | every run of events keeps the pool invariant |
| `Pool.RunBuffer` | server.js:224-226 | with the corrected append, over a run the buffer grows by the whole 200 bodies in completion order; errors, timeouts and other statuses add nothing |
| `Pool.RunPending` | server.js:249-257 | with non-empty URLs every event finishes one pending request and no slot stalls |
| `Pool.RunInFlight` | server.js:170-173 | the URLs finished over a run plus those in flight are exactly the URLs claimed |
| `Pool.ReplyIsFinal` | server.js:259-275 | once the reply is sent no event can happen, so the reply is sent at most once |
| `Pool.ReplyOfBuffer` | server.js:264-275 | a sent reply is 204 exactly when the buffer holds no bytes, and otherwise carries those bytes as miniSEED |
| `Pool.Done` | server.js:259-262 | a pool that has replied has claimed every request and has nothing in flight |
| `Pool.Completion` | server.js:249-275 | a run has at most one event per routed request, and the reply is sent exactly when every routed request has finished |
| `Pool.RunCompletes` | server.js:249-275 | from any consistent pool with all routed requests pending, a run has at most one event per request and replies exactly when all have finished |
| `Pool.RunReply` | server.js:259-275 | the reply of a run that replied is 204 when no 200 body carried bytes and otherwise all those bytes |
| `Pool.CompletionReply` | server.js:259-275 | the same for a pool started on the routed requests |
| `Pool.RunServed` | server.js:170-173 | when the reply is sent the claimed suffix is the whole list and the finished URLs are the list as a multiset |
| `Pool.CompletionServed` | server.js:170-173 | when the reply is sent every routed request was claimed and fetched exactly once |
| `Pool.FinishAsWritten` | server.js:214-228 | with the source's own append the callback dies exactly on a bodiless 200 response after bytes were buffered, and otherwise reaches the same pool as the corrected callback |
| `Pool.RunAsWrittenAgrees` | server.js:204-277 | a run of the source's callbacks either crashes, which needs a bodiless 200 response among the events, or ends exactly where the corrected run ends |
| `Pool.NoEmptyOkAgrees` | server.js:204-277 | without bodiless 200 responses the source's run reaches the corrected run's pool, so the run results hold for the source as written |
| `Pool.CrashIsFinal` | server.js:224-228 | after the throw no further event, and so no reply, can follow |
| `Pool.EmptyOkBodyCrashes` | server.js:224-228 | with two requests answered 200 with byte 01 and then 200 without a body, the corrected pool replies with 01 while the source crashes and never replies |
| `Pool.NoRequestsNeverReply` | server.js:149-161 | with no routed requests no slot opens, no event can happen and no reply is ever sent |
| `Collector.EndToEnd` | server.js:139-277 | for a valid window and a 200 routing answer: at most one finished fetch per selector, a reply exactly when all have finished (never for an empty document), 204 when no bytes came and the bytes otherwise, every expanded URL fetched once |
| `Collector.SingleBackend` | server.js:207-275 | one selector whose backend answers 200 with bytes 00 01 gives the client 200 with exactly those bytes as miniSEED |
| `Collector.PartialFailure` | server.js:235-241 | of two selectors, one failing and one answering 200 with byte AA, the client gets 200 with only AA |

## Left out

- Pool.Finish: the pool, and with it `Pool.RunBuffer`, `Pool.RunReply`, `Pool.Completion`, `Pool.CompletionReply`, `Pool.CompletionServed` and `Collector.EndToEnd`, uses the corrected append (see Findings), so on a run with a bodiless 200 response after buffered bytes these describe the evidently intended program and not `server.js`, which throws there and never replies (`Pool.RunAsWritten`, `Pool.EmptyOkBodyCrashes`); on every other run the two agree (`Pool.NoEmptyOkAgrees`).
- Express routing, `listen`, `http.request`, `http.get` and the response object are I/O; responses are modelled as values and each backend fetch as one event outcome.
- `xml2js.parseString` is a foreign library: the model starts from the decoded document with string fields, and does not follow the TypeError that an undecodable body (whose `err` is ignored) raises on `result.service`.
- An `error` event on the routing request has no handler in the source and ends the process; the model only sees routing answers that arrived.
- The 30-second abort timer and `res.setTimeout` are wall-clock timing: an abort is a `Failed` outcome, and a fetch that never ends is a slot that never gets an event (runs may stop anywhere).
- A backend fetch ends with exactly one event; an `error` arriving after a response's `end` (a second `threadFinished` for one fetch) is not modelled.
- A TypeError thrown by `parseUrl` inside the pool (a routed URL without "http://") is not followed by the pool, which treats every claimed URL's fetch as an abstract outcome; `Urls.ParseUrl` models where it throws.
- Query values given as arrays (a repeated `start`) are not modelled: `start` and `end` are optional strings.
- Bunyan logging, timing metrics from `new Date()`, `generateRequestID` (random) and `requestCounter` (incremented, never read) have no behaviour to state.
- Express's default Content-Type for `send(string)` is not modelled; `Reply.contentType` holds only the header the handler sets itself.
- `Buffer` internals: bytes are `seq<bv8>` and concatenation is `+`; Node delivers no empty `data` chunk, so a chunk is a non-empty byte sequence.

## Findings

| source | as written | input that shows it | evidently intended | confidence | as-written member | corrected member |
|---|---|---|---|---|---|---|
| server.js:224-226 | on `end` of a 200 response, `Buffer.concat([fullBuffer, tempBuffer])` runs even when no `data` event set `tempBuffer`, and `Buffer.concat` throws on the `undefined` element inside the callback | one backend answers 200 with bytes, then another answers 200 with an empty body | a 200 response without a body adds nothing to the buffer | medium, not executed | `Pool.EmptyOkBodyCrashes` | `Buffers.Append` |

=== FILE: buffers.dfy ===
/** The byte buffers of the fetch pool: each request's `tempBuffer`, filled
    chunk by chunk, and the shared `fullBuffer` it is appended to at the end
    of a 200 response. `undefined` is modelled as None. */
module Buffers {
  import opened Common
  import opened Replies

  /** A chunk delivered by one 'data' event; Node never delivers an empty one. */
  type Chunk = c: seq<byte> | |c| > 0 witness [0]

  /** All bytes of a sequence of chunks, in order. */
  function Flatten(chunks: seq<Chunk>): seq<byte>
    decreases |chunks|
  {
    if |chunks| == 0 then [] else Flatten(chunks[..|chunks| - 1]) + chunks[|chunks| - 1]
  }

  /** The bytes held by a possibly absent buffer. */
  function Bytes(b: Option<seq<byte>>): seq<byte> {
    if b.Some? then b.value else []
  }

  /** One 'data' event of a 200 response: the first chunk starts the buffer,
      later ones are concatenated to it. */
  function Receive(temp: Option<seq<byte>>, chunk: Chunk): (t: Option<seq<byte>>)
    ensures t.Some?
    ensures Bytes(t) == Bytes(temp) + chunk
  {
    match temp
    case None => Some(chunk)
    case Some(b) => Some(b + chunk)
  }

  /** `tempBuffer` once every chunk has arrived: absent exactly when no chunk
      came, and otherwise all the bytes in arrival order. */
  function ReceiveAll(chunks: seq<Chunk>): (t: Option<seq<byte>>)
    ensures t.None? <==> |chunks| == 0
    ensures Bytes(t) == Flatten(chunks)
    ensures t.Some? ==> |t.value| > 0
    decreases |chunks|
  {
    if |chunks| == 0 then None
    else Receive(ReceiveAll(chunks[..|chunks| - 1]), chunks[|chunks| - 1])
  }

  /** The outcome of the source's append at the end of a 200 response. */
  datatype Appended = Threw | Buffered(buffer: Option<seq<byte>>)

  /** `fullBuffer = fullBuffer ? Buffer.concat([fullBuffer, tempBuffer]) : tempBuffer`
      as written: `Buffer.concat` throws on the `undefined` element left by a
      200 response without a body. */
  function AppendAsWritten(full: Option<seq<byte>>, temp: Option<seq<byte>>): Appended {
    match full
    case None => Buffered(temp)
    case Some(f) =>
      match temp
      case None => Threw
      case Some(t) => Buffered(Some(f + t))
  }

  /** The append the source evidently intends: a response without a body adds
      nothing. The buffer stays absent only while nothing has been added. */
  function Append(full: Option<seq<byte>>, temp: Option<seq<byte>>): (r: Option<seq<byte>>)
    ensures Bytes(r) == Bytes(full) + Bytes(temp)
    ensures r.None? <==> full.None? && temp.None?
  {
    match temp
    case None => full
    case Some(t) => if full.Some? then Some(full.value + t) else Some(t)
  }

  /** A 200 response without a body, after bytes have been buffered, makes the
      source throw from inside the response's 'end' callback. */
  lemma EmptyOkBodyThrows()
    ensures AppendAsWritten(Some([0x4d]), ReceiveAll([])) == Threw
    ensures Append(Some([0x4d]), ReceiveAll([])) == Some([0x4d])
  {
  }

  /** The source throws exactly in that case and agrees with `Append` otherwise. */
  lemma AppendAsWrittenAgrees(full: Option<seq<byte>>, temp: Option<seq<byte>>)
    ensures AppendAsWritten(full, temp).Threw? <==> full.Some? && temp.None?
    ensures AppendAsWritten(full, temp).Buffered? ==> AppendAsWritten(full, temp).buffer == Append(full, temp)
  {
  }
}

=== FILE: collector.dfy ===
/** The `/router` endpoint end to end: the time-window check, the routing
    service's answer, expansion into backend requests and the fetch pool. */
module Collector {
  import opened Common
  import opened Replies
  import opened Gate
  import opened Routing
  import opened Pool
  import opened Buffers

  /** What the routing service answered: its status, its body text, and the
      datacenters that body decodes to (used only for a 200 answer). */
  datatype RoutingAnswer = RoutingAnswer(status: int, body: string, document: seq<Datacenter>)

  /** Where a request stands after the first handler: answered, or fetching. */
  datatype Stage = Answered(reply: Reply) | Started(pool: Pool)

  /** Both handlers up to the start of the fetch pool. */
  function Handle(start: Option<string>, end: Option<string>, parses: string -> bool,
                  routing: RoutingAnswer): (r: Stage)
    ensures r.Started? <==> CheckWindow(start, end, parses).Accepted? && routing.status == 200
    ensures r.Started? ==>
      r.pool == Start(Expand(routing.document, start.value, end.value))
  {
    match CheckWindow(start, end, parses)
    case Rejected(reply) => Answered(reply)
    case Accepted(s, e) =>
      match Route(routing.status, routing.body)
      case Answer(reply) => Answered(reply)
      case Proceed => Started(Start(Expand(routing.document, s, e)))
  }

  /** An invalid start or end is answered with its own 400 message whatever
      the routing service would have said: the routing request is never made. */
  lemma BadWindowSkipsRouting(start: Option<string>, end: Option<string>, parses: string -> bool,
                              one: RoutingAnswer, other: RoutingAnswer)
    requires !Parses(start, parses) || !Parses(end, parses)
    ensures Handle(start, end, parses, one) == Handle(start, end, parses, other)
    ensures !Parses(start, parses) ==> Handle(start, end, parses, one) == Answered(BadRequest(START_INVALID))
    ensures Parses(start, parses) ==> Handle(start, end, parses, one) == Answered(BadRequest(END_INVALID))
  {
  }

  /** A 204 from the routing service is passed on, and any other non-200
      status becomes a 400 carrying the routing service's body, whatever the
      document would have decoded to. */
  lemma RoutingStatusPassThrough(start: string, end: string, parses: string -> bool, routing: RoutingAnswer)
    requires parses(start) && parses(end)
    requires routing.status != 200
    ensures Handle(Some(start), Some(end), parses, routing)
      == Answered(if routing.status == 204 then NO_CONTENT else BadRequest(ROUTING_FAILED + routing.body))
  {
  }

  /** End to end: with a valid window and a 200 routing answer, a run of the
      pool finishes at most one fetch per expanded URL; the client gets a reply
      exactly when all of them have finished (and never when the document
      routes nothing); that reply is 204 when no 200 body carried bytes and
      otherwise those bytes; by then every expanded URL was fetched once. */
  lemma EndToEnd(start: string, end: string, parses: string -> bool, routing: RoutingAnswer,
                 events: seq<Event>)
    requires Handle(Some(start), Some(end), parses, routing).Started?
    requires Run(Handle(Some(start), Some(end), parses, routing).pool, events).Some?
    ensures |events| <= TotalParams(routing.document)
    ensures Run(Handle(Some(start), Some(end), parses, routing).pool, events).value.reply.Some?
      <==> 0 < |events| == TotalParams(routing.document)
    ensures Run(Handle(Some(start), Some(end), parses, routing).pool, events).value.reply.Some? ==>
      && Run(Handle(Some(start), Some(end), parses, routing).pool, events).value.reply.value
         == (if Delivered(events) == [] then NO_CONTENT else Mseed(Delivered(events)))
      && multiset(Served(Handle(Some(start), Some(end), parses, routing).pool, events))
         == multiset(Expand(routing.document, start, end))
  {
    var urls := Expand(routing.document, start, end);
    ExpandNonEmpty(routing.document, start, end);
    Completion(urls, events);
    if Run(Start(urls), events).value.reply.Some? {
      CompletionReply(urls, events);
      CompletionServed(urls, events);
    }
  }

  /** One datacenter with one selector whose backend answers 200 with two
      bytes: the client receives exactly those bytes as miniSEED. */
  lemma SingleBackend(start: string, end: string, parses: string -> bool, dc: Datacenter)
    requires parses(start) && parses(end) && |dc.params| == 1
    ensures var stage := Handle(Some(start), Some(end), parses, RoutingAnswer(200, "", [dc]));
      && stage.Started?
      && Run(stage.pool, [Event(0, Completed(200, [[0x00, 0x01]]))]).Some?
      && Run(stage.pool, [Event(0, Completed(200, [[0x00, 0x01]]))]).value.reply == Some(Mseed([0x00, 0x01]))
  {
    var urls := Expand([dc], start, end);
    assert |urls| == 1;
    ExpandNonEmpty([dc], start, end);
    var p := Start(urls);
    assert p.slots[0] == Busy(urls[0]);
    var events := [Event(0, Completed(200, [[0x00, 0x01]]))];
    assert Enabled(p, events[0]);
    assert Run(p, events).Some?;
    Completion(urls, events);
    CompletionReply(urls, events);
    assert Delivered(events) == Flatten([[0x00, 0x01]]);
  }

  /** Two selectors; one fetch fails (or times out), the other answers 200
      with one byte: the client receives only that byte. */
  lemma PartialFailure(start: string, end: string, parses: string -> bool, dc: Datacenter)
    requires parses(start) && parses(end) && |dc.params| == 2
    ensures var stage := Handle(Some(start), Some(end), parses, RoutingAnswer(200, "", [dc]));
      && stage.Started?
      && Run(stage.pool, [Event(0, Failed), Event(1, Completed(200, [[0xAA]]))]).Some?
      && Run(stage.pool, [Event(0, Failed), Event(1, Completed(200, [[0xAA]]))]).value.reply == Some(Mseed([0xAA]))
  {
    var urls := Expand([dc], start, end);
    HandleStarts(start, end, parses, dc);
    ExpandOne(dc, start, end);
    StartTwo(urls);
    FailThenByte(Start(urls));
  }

  /** With a valid window and a 200 answer naming one datacenter, the pool
      starts on that datacenter's requests. */
  lemma HandleStarts(start: string, end: string, parses: string -> bool, dc: Datacenter)
    requires parses(start) && parses(end)
    ensures Handle(Some(start), Some(end), parses, RoutingAnswer(200, "", [dc]))
         == Started(Start(Expand([dc], start, end)))
  {
  }

  /** One datacenter expands to one non-empty URL per selector. */
  lemma ExpandOne(dc: Datacenter, start: string, end: string)
    ensures |Expand([dc], start, end)| == |dc.params|
    ensures NonEmpty(Expand([dc], start, end))
  {
    ExpandNonEmpty([dc], start, end);
    assert TotalParams([dc]) == TotalParams([]) + |dc.params|;
  }

  /** Two non-empty requests start two fetches and leave nothing to claim. */
  lemma StartTwo(urls: seq<string>)
    requires |urls| == 2 && NonEmpty(urls)
    ensures |Start(urls).slots| == 2 && Start(urls).queue == []
    ensures Start(urls).slots[0].Busy? && Start(urls).slots[1].Busy?
    ensures Start(urls).buffer.None? && Start(urls).reply.None?
  {
    var p := Start(urls);
    assert |p.claimed| == 2;
    assert p.slots[0] == Occupy(urls[1]) && p.slots[1] == Occupy(urls[0]);
  }

  /** Two fetches in flight and nothing left to claim: a failure, then a 200
      answer with byte AA, sends exactly that byte. */
  lemma FailThenByte(p: Pool)
    requires |p.slots| == 2 && p.queue == [] && p.buffer.None? && p.reply.None?
    requires p.slots[0].Busy? && p.slots[1].Busy?
    ensures Run(p, [Event(0, Failed), Event(1, Completed(200, [[0xAA]]))]).Some?
    ensures Run(p, [Event(0, Failed), Event(1, Completed(200, [[0xAA]]))]).value.reply == Some(Mseed([0xAA]))
  {
    var events := [Event(0, Failed), Event(1, Completed(200, [[0xAA]]))];
    var p1 := Finish(p, 0, Failed);
    assert p1.slots[1].Busy? && p1.buffer.None?;
    var p2 := Finish(p1, 1, Completed(200, [[0xAA]]));
    assert AllIdle(p2.slots);
    assert Flatten([[0xAA]]) == [0xAA];
    assert p2.buffer == Some([0xAA]);
    assert Run(p1, events[1..]) == Run(p2, []);
    assert Run(p, events) == Some(p2);
  }
}

=== FILE: common.dfy ===
/** Small shared vocabulary: an optional value and the integer minimum. */
module Common {

  /** A value that may be absent (JavaScript's `undefined`). */
  datatype Option<+T> = None | Some(value: T)

  /** `Math.min` on integers. */
  function Min(a: int, b: int): (m: int)
    ensures m <= a && m <= b
    ensures m == a || m == b
  {
    if a < b then a else b
  }
}

=== FILE: gate.dfy ===
/** The first `/router` handler's checks: the time window, then the routing
    service's status code. */
module Gate {
  import opened Common
  import opened Replies

  /** `!isNaN(Date.parse(t))`, where `parses` stands for `Date.parse`
      succeeding and an absent query value is `undefined`, which never parses. */
  predicate Parses(t: Option<string>, parses: string -> bool) {
    t.Some? && parses(t.value)
  }

  /** The time window passed the check, carrying the raw client strings. */
  datatype Checked = Rejected(reply: Reply) | Accepted(start: string, end: string)

  /** The start time is checked first, then the end time; no ordering between
      them is required. */
  function CheckWindow(start: Option<string>, end: Option<string>, parses: string -> bool): (r: Checked)
    ensures r.Accepted? <==> Parses(start, parses) && Parses(end, parses)
    ensures r.Accepted? ==> start == Some(r.start) && end == Some(r.end)
    ensures r == Rejected(BadRequest(START_INVALID)) <==> !Parses(start, parses)
    ensures r == Rejected(BadRequest(END_INVALID)) <==> Parses(start, parses) && !Parses(end, parses)
  {
    if !Parses(start, parses) then Rejected(BadRequest(START_INVALID))
    else if !Parses(end, parses) then Rejected(BadRequest(END_INVALID))
    else Accepted(start.value, end.value)
  }

  /** What to do with the routing service's answer. */
  datatype Routed = Answer(reply: Reply) | Proceed

  /** 204 passes through, any other non-200 status becomes 400 with the
      upstream body, and only 200 goes on to expansion. */
  function Route(status: int, body: string): (r: Routed)
    ensures r.Proceed? <==> status == 200
    ensures status == 204 ==> r == Answer(NO_CONTENT)
    ensures status != 200 && status != 204 ==> r == Answer(BadRequest(ROUTING_FAILED + body))
    ensures r.Answer? ==> r.reply.status in {204, 400}
  {
    if status == 204 then Answer(NO_CONTENT)
    else if status != 200 then Answer(BadRequest(ROUTING_FAILED + body))
    else Proceed
  }
}

=== FILE: pool.dfy ===
/** The second `/router` handler: a pool of at most twenty slots that pop
    routed requests off the end of the list, fetch them, append every 200
    body to one buffer and reply once the list is empty and every slot is
    idle. Each callback runs atomically, so the pool is a state machine whose
    events are "the request in flight in slot i finished with this outcome". */
module Pool {
  import opened Common
  import opened Replies
  import opened Buffers

  /** `NUMBER_OF_THREADS`. */
  const POOL_SIZE: nat := 20

  /** A slot: idle (`threads[i] == true`), fetching a URL, or stalled
      (`threads[i] == false` with nothing in flight, after `pop()` gave a falsy value). */
  datatype Slot = Idle | Busy(url: string) | Stalled

  /** How a fetch ended: a response with its status and body chunks, or an
      error (a network error, or the abort after the request timeout). */
  datatype Outcome = Completed(status: int, chunks: seq<Chunk>) | Failed

  /** The request in flight in `slot` finished with `outcome`. */
  datatype Event = Event(slot: nat, outcome: Outcome)

  /** The remaining list, the slots, `fullBuffer`, the requests claimed so far
      (the suffix of the routed list that `pop()` has removed) and the reply, once sent. */
  datatype Pool = Pool(queue: seq<string>, slots: seq<Slot>, buffer: Option<seq<byte>>,
                       claimed: seq<string>, reply: Option<Reply>)

  /** `threads.every(Boolean)`. */
  predicate AllIdle(slots: seq<Slot>) {
    forall j | 0 <= j < |slots| :: slots[j].Idle?
  }

  /** The slot state after `getRequest` popped `url`: `if(!requestedUrl) return;`
      leaves the slot marked busy without starting a fetch. */
  function Occupy(url: string): Slot {
    if url == "" then Stalled else Busy(url)
  }

  /** `getRequest(i)`: mark slot i busy and pop the last remaining request. */
  function Claim(p: Pool, i: nat): (q: Pool)
    requires i < |p.slots|
    ensures |q.slots| == |p.slots| && forall j | 0 <= j < |p.slots| && j != i :: q.slots[j] == p.slots[j]
    ensures q.queue + q.claimed == p.queue + p.claimed
    ensures |p.queue| > 0 ==> |q.queue| == |p.queue| - 1 && q.slots[i] == Occupy(p.queue[|p.queue| - 1])
    ensures |p.queue| == 0 ==> q.queue == p.queue && q.slots[i] == Stalled
    ensures q.buffer == p.buffer && q.reply == p.reply
  {
    if |p.queue| == 0 then p.(slots := p.slots[i := Stalled])
    else
      var n := |p.queue| - 1;
      var url := p.queue[n];
      assert p.queue == p.queue[..n] + [url];
      p.(queue := p.queue[..n], claimed := [url] + p.claimed, slots := p.slots[i := Occupy(url)])
  }

  /** The state after the first `k` turns of the start loop
      `threads.push(true); getRequest(i)`: slot i holds the i-th request from the end. */
  function Open(requests: seq<string>, k: nat): (p: Pool)
    requires k <= |requests|
    ensures |p.slots| == k
    ensures p.queue == requests[..|requests| - k] && p.claimed == requests[|requests| - k..]
    ensures forall i | 0 <= i < k :: p.slots[i] == Occupy(requests[|requests| - 1 - i])
    ensures p.buffer == None && p.reply == None
  {
    if k == 0 then Pool(requests, [], None, [], None)
    else
      var p := Open(requests, k - 1);
      var q := Claim(p.(slots := p.slots + [Idle]), k - 1);
      assert requests[|requests| - k..] == [requests[|requests| - k]] + requests[|requests| - k + 1..];
      q
  }

  /** The pool as it starts: `min(NUMBER_OF_THREADS, routedRequests.length)`
      slots, each having claimed one request. */
  function Start(requests: seq<string>): (p: Pool)
    ensures |p.slots| == Min(POOL_SIZE, |requests|)
    ensures p.queue + p.claimed == requests && |p.claimed| == |p.slots|
    ensures forall i | 0 <= i < |p.slots| :: p.slots[i] == Occupy(requests[|requests| - 1 - i])
    ensures p.buffer == None && p.reply == None
  {
    Open(requests, Min(POOL_SIZE, |requests|))
  }

  /** The bytes an outcome contributes: the whole body of a 200 response, nothing otherwise. */
  function Contribution(o: Outcome): seq<byte> {
    if o.Completed? && o.status == 200 then Flatten(o.chunks) else []
  }

  /** The reply once the pool is done: 204 when nothing was buffered, else the data. */
  function FinalReply(buffer: Option<seq<byte>>): Reply {
    match buffer
    case None => NO_CONTENT
    case Some(b) => Mseed(b)
  }

  /** An event can happen only for a slot with a fetch in flight. */
  predicate Enabled(p: Pool, e: Event) {
    e.slot < |p.slots| && p.slots[e.slot].Busy?
  }

  /** The 'end' or 'error' callback of slot i, ending in `threadFinished(i)`. */
  function Finish(p: Pool, i: nat, o: Outcome): (q: Pool)
    requires i < |p.slots| && p.slots[i].Busy?
    ensures |q.slots| == |p.slots| && forall j | 0 <= j < |p.slots| && j != i :: q.slots[j] == p.slots[j]
    ensures Bytes(q.buffer) == Bytes(p.buffer) + Contribution(o)
    ensures q.queue + q.claimed == p.queue + p.claimed
    ensures |p.queue| > 0 ==> |q.queue| == |p.queue| - 1 && !q.slots[i].Idle?
    ensures |p.queue| == 0 ==> q.queue == p.queue && q.claimed == p.claimed && q.slots[i].Idle?
    ensures q.reply != p.reply ==> |q.queue| == 0 && AllIdle(q.slots) && q.reply == Some(FinalReply(q.buffer))
    ensures p.reply.None? && |q.queue| == 0 && AllIdle(q.slots) ==> q.reply == Some(FinalReply(q.buffer))
  {
    var buffer := if o.Completed? && o.status == 200 then Append(p.buffer, ReceiveAll(o.chunks)) else p.buffer;
    Settle(p, i, buffer)
  }

  /** `threadFinished(i)` once the buffer is settled: free slot i, re-claim
      while requests remain, and reply when the list is empty and every slot idle. */
  function Settle(p: Pool, i: nat, buffer: Option<seq<byte>>): Pool
    requires i < |p.slots|
  {
    var p1 := p.(buffer := buffer, slots := p.slots[i := Idle]);
    if |p1.queue| > 0 then Claim(p1, i)
    else if !AllIdle(p1.slots) then p1
    else p1.(reply := Some(FinalReply(p1.buffer)))
  }

  /** A 200 response without a body: no 'data' event fired. */
  predicate EmptyOk(o: Outcome) {
    o.Completed? && o.status == 200 && |o.chunks| == 0
  }

  /** The outcome whose append throws in the source: a bodiless 200 response
      after bytes were already buffered. */
  predicate Throws(buffer: Option<seq<byte>>, o: Outcome) {
    buffer.Some? && EmptyOk(o)
  }

  /** The callback of slot i with the source's append: absent where the
      append throws inside the 'end' callback, so `threadFinished(i)` never runs. */
  function FinishAsWritten(p: Pool, i: nat, o: Outcome): (r: Option<Pool>)
    requires i < |p.slots| && p.slots[i].Busy?
    ensures r.None? <==> Throws(p.buffer, o)
    ensures r.Some? ==> r.value == Finish(p, i, o)
  {
    if o.Completed? && o.status == 200 then
      AppendAsWrittenAgrees(p.buffer, ReceiveAll(o.chunks));
      match AppendAsWritten(p.buffer, ReceiveAll(o.chunks))
      case Threw => None
      case Buffered(b) => Some(Settle(p, i, b))
    else Some(Settle(p, i, p.buffer))
  }

  /** The pool after a sequence of events; None if some event names a slot
      with nothing in flight, which no callback can do. */
  function Run(p: Pool, events: seq<Event>): Option<Pool>
    decreases |events|
  {
    if |events| == 0 then Some(p)
    else if Enabled(p, events[0]) then Run(Finish(p, events[0].slot, events[0].outcome), events[1..])
    else None
  }

  /** How a run of the source's own callbacks ends: an event named a slot with
      nothing in flight, the process died of a throwing append, or the pool reached. */
  datatype Ending = Invalid | Crashed | Reached(pool: Pool)

  /** The pool after a sequence of events, with the source's append. */
  function RunAsWritten(p: Pool, events: seq<Event>): Ending
    decreases |events|
  {
    if |events| == 0 then Reached(p)
    else if !Enabled(p, events[0]) then Invalid
    else
      match FinishAsWritten(p, events[0].slot, events[0].outcome)
      case None => Crashed
      case Some(q) => RunAsWritten(q, events[1..])
  }

  /** No event is a 200 response without a body. */
  predicate NoEmptyOk(events: seq<Event>) {
    forall k | 0 <= k < |events| :: !EmptyOk(events[k].outcome)
  }

  /** The bytes a sequence of events contributes, in completion order. */
  function Delivered(events: seq<Event>): seq<byte>
    decreases |events|
  {
    if |events| == 0 then [] else Contribution(events[0].outcome) + Delivered(events[1..])
  }

  /** The URLs whose fetches the events finish, in completion order. */
  function Served(p: Pool, events: seq<Event>): seq<string>
    decreases |events|
  {
    if |events| == 0 || !Enabled(p, events[0]) then []
    else [p.slots[events[0].slot].url] + Served(Finish(p, events[0].slot, events[0].outcome), events[1..])
  }

  /** The invariant of a pool started on `original`. */
  predicate Consistent(p: Pool, original: seq<string>) {
    && p.queue + p.claimed == original
    && |p.slots| == Min(POOL_SIZE, |original|)
    && (|p.queue| > 0 ==> forall j | 0 <= j < |p.slots| :: !p.slots[j].Idle?)
    && (p.reply.Some? <==> |p.queue| == 0 && |p.slots| > 0 && AllIdle(p.slots))
    && (p.reply.Some? ==> p.reply.value == FinalReply(p.buffer))
    && (p.buffer.Some? ==> |p.buffer.value| > 0)
  }

  /** No slot is stalled. */
  predicate NoStall(p: Pool) {
    forall j | 0 <= j < |p.slots| :: !p.slots[j].Stalled?
  }

  /** No routed request is the empty string. */
  predicate NonEmpty(requests: seq<string>) {
    forall k | 0 <= k < |requests| :: requests[k] != ""
  }

  /** The number of slots with a fetch in flight. */
  function BusyCount(slots: seq<Slot>): nat
    decreases |slots|
  {
    if |slots| == 0 then 0 else BusyCount(slots[..|slots| - 1]) + (if slots[|slots| - 1].Busy? then 1 else 0)
  }

  /** The multiset of URLs in flight. */
  function InFlight(slots: seq<Slot>): multiset<string>
    decreases |slots|
  {
    if |slots| == 0 then multiset{}
    else InFlight(slots[..|slots| - 1]) + Fetching(slots[|slots| - 1])
  }

  /** Requests still waiting or in flight. */
  function Pending(p: Pool): nat {
    |p.queue| + BusyCount(p.slots)
  }

  /** Replacing one slot changes the busy count by that slot's contribution. */
  lemma {:induction false} BusyCountUpdate(slots: seq<Slot>, i: nat, x: Slot)
    requires i < |slots|
    ensures BusyCount(slots[i := x]) + (if slots[i].Busy? then 1 else 0)
         == BusyCount(slots) + (if x.Busy? then 1 else 0)
    decreases |slots|
  {
    var n := |slots| - 1;
    if i < n {
      assert slots[i := x][..n] == slots[..n][i := x];
      BusyCountUpdate(slots[..n], i, x);
    } else {
      assert slots[i := x][..n] == slots[..n];
    }
  }

  /** The URL a slot has in flight, as a multiset. */
  function Fetching(s: Slot): multiset<string> {
    if s.Busy? then multiset{s.url} else multiset{}
  }

  /** Adding the same URLs to both sides of an in-flight balance keeps it (`InFlightUpdate`, earlier slot replaced). */
  lemma Rebalance(a: multiset<string>, b: multiset<string>, out: multiset<string>, into: multiset<string>, same: multiset<string>)
    requires a + out == b + into
    ensures a + same + out == b + same + into
  {
    forall o
      ensures (a + same + out)[o] == (b + same + into)[o]
    {
      assert (a + out)[o] == (b + into)[o];
    }
  }

  /** Reordering the last two parts of a sum of URL multisets (`InFlightUpdate`, last slot replaced). */
  lemma Swap(a: multiset<string>, b: multiset<string>, c: multiset<string>)
    ensures a + b + c == a + c + b
  {
    forall o
      ensures (a + b + c)[o] == (a + c + b)[o]
    {
    }
  }

  /** Replacing one slot changes the in-flight URLs by that slot's URL. */
  lemma {:induction false} InFlightUpdate(slots: seq<Slot>, i: nat, x: Slot)
    requires i < |slots|
    ensures InFlight(slots[i := x]) + Fetching(slots[i]) == InFlight(slots) + Fetching(x)
    decreases |slots|
  {
    var n := |slots| - 1;
    var t := slots[i := x];
    assert InFlight(t) == InFlight(t[..n]) + Fetching(t[n]);
    assert InFlight(slots) == InFlight(slots[..n]) + Fetching(slots[n]);
    if i < n {
      assert t[..n] == slots[..n][i := x];
      InFlightUpdate(slots[..n], i, x);
      Rebalance(InFlight(t[..n]), InFlight(slots[..n]), Fetching(slots[i]), Fetching(x), Fetching(slots[n]));
    } else {
      assert t[..n] == slots[..n];
      Swap(InFlight(slots[..n]), Fetching(x), Fetching(slots[n]));
    }
  }

  /** With no fetch in flight and no stalled slot, every slot is idle. */
  lemma {:induction false} NothingBusyIsIdle(slots: seq<Slot>)
    requires forall j | 0 <= j < |slots| :: !slots[j].Stalled?
    requires BusyCount(slots) == 0
    ensures AllIdle(slots)
    ensures InFlight(slots) == multiset{}
    decreases |slots|
  {
    if |slots| > 0 {
      var n := |slots| - 1;
      NothingBusyIsIdle(slots[..n]);
      assert forall j | 0 <= j < n :: slots[..n][j] == slots[j];
    }
  }

  /** A slot that is not idle keeps the pool from being done. */
  lemma NotAllIdle(slots: seq<Slot>, i: nat)
    requires i < |slots| && !slots[i].Idle?
    ensures !AllIdle(slots)
  {
  }

  /** Slots fetching the URLs of a list, last URL in the first slot.*/
  predicate FetchingReversed(slots: seq<Slot>, urls: seq<string>) {
    |slots| == |urls| && forall i | 0 <= i < |slots| :: slots[i] == Busy(urls[|urls| - 1 - i])
  }

  /** Dropping the last slot drops the first URL. */
  lemma FetchingReversedInit(slots: seq<Slot>, urls: seq<string>)
    requires FetchingReversed(slots, urls) && |slots| > 0
    ensures FetchingReversed(slots[..|slots| - 1], urls[1..])
    ensures slots[|slots| - 1] == Busy(urls[0])
  {
    var n := |slots| - 1;
    forall i | 0 <= i < n
      ensures slots[..n][i] == Busy(urls[1..][n - 1 - i])
    {
      assert slots[..n][i] == slots[i];
    }
  }

  /** Such slots count one busy slot per URL. */
  lemma {:induction false} FetchingAllCount(slots: seq<Slot>, urls: seq<string>)
    requires FetchingReversed(slots, urls)
    ensures BusyCount(slots) == |slots|
    decreases |slots|
  {
    if |slots| > 0 {
      FetchingReversedInit(slots, urls);
      FetchingAllCount(slots[..|slots| - 1], urls[1..]);
    }
  }

  /** Such slots have exactly the list's URLs in flight. */
  lemma {:induction false} FetchingAllInFlight(slots: seq<Slot>, urls: seq<string>)
    requires FetchingReversed(slots, urls)
    ensures InFlight(slots) == multiset(urls)
    decreases |slots|
  {
    if |slots| > 0 {
      var n := |slots| - 1;
      var rest := urls[1..];
      FetchingReversedInit(slots, urls);
      FetchingAllInFlight(slots[..n], rest);
      assert urls == [urls[0]] + rest;
      assert multiset(urls) == multiset{urls[0]} + multiset(rest);
      assert InFlight(slots) == multiset(rest) + multiset{urls[0]};
      Swap(multiset{}, multiset(rest), multiset{urls[0]});
    }
  }

  /** Right after the start every slot is fetching or stalled, and nothing has replied. */
  lemma StartConsistent(requests: seq<string>)
    ensures Consistent(Start(requests), requests)
  {
    OpenedConsistent(Start(requests), requests);
  }

  /** A pool whose slots each occupy one claim, with nothing buffered or sent,
      satisfies the invariant. */
  lemma OpenedConsistent(p: Pool, requests: seq<string>)
    requires |p.slots| == Min(POOL_SIZE, |requests|)
    requires p.queue + p.claimed == requests && |p.claimed| == |p.slots|
    requires forall i | 0 <= i < |p.slots| :: p.slots[i] == Occupy(requests[|requests| - 1 - i])
    requires p.buffer == None && p.reply == None
    ensures Consistent(p, requests)
  {
    if |p.slots| > 0 {
      NotAllIdle(p.slots, 0);
    }
  }

  /** With non-empty URLs slot i of the started pool fetches the i-th claimed request from the end. */
  lemma StartReversed(requests: seq<string>)
    requires NonEmpty(requests)
    ensures FetchingReversed(Start(requests).slots, Start(requests).claimed)
    ensures |Start(requests).queue| + |Start(requests).slots| == |requests|
  {
    ClaimsReversed(Start(requests), requests);
  }

  /** Slots that occupy the requests from the end, one per claim, fetch the
      claimed suffix in reverse. */
  lemma ClaimsReversed(p: Pool, requests: seq<string>)
    requires NonEmpty(requests)
    requires p.queue + p.claimed == requests && |p.claimed| == |p.slots|
    requires forall i | 0 <= i < |p.slots| :: p.slots[i] == Occupy(requests[|requests| - 1 - i])
    ensures FetchingReversed(p.slots, p.claimed)
    ensures |p.queue| + |p.slots| == |requests|
  {
    var n := |p.slots|;
    var m := |requests|;
    forall i | 0 <= i < n
      ensures p.slots[i] == Busy(p.claimed[n - 1 - i])
    {
      assert requests[m - 1 - i] == (p.queue + p.claimed)[m - 1 - i];
      assert requests[m - 1 - i] != "";
    }
  }

  /** With non-empty URLs every started slot is fetching its own request. */
  lemma StartFetching(requests: seq<string>)
    requires NonEmpty(requests)
    ensures NoStall(Start(requests))
    ensures Pending(Start(requests)) == |requests|
    ensures InFlight(Start(requests).slots) == multiset(Start(requests).claimed)
  {
    var p := Start(requests);
    StartReversed(requests);
    FetchingAllCount(p.slots, p.claimed);
    FetchingAllInFlight(p.slots, p.claimed);
  }

  /** One event keeps the invariant. */
  lemma FinishConsistent(p: Pool, original: seq<string>, i: nat, o: Outcome)
    requires Consistent(p, original)
    requires i < |p.slots| && p.slots[i].Busy?
    ensures Consistent(Finish(p, i, o), original)
  {
    NotAllIdle(p.slots, i);
    var q := Finish(p, i, o);
    if |p.queue| > 0 {
      NotAllIdle(q.slots, i);
    }

  }

  /** The slots and claims after an event: the finished slot goes idle and,
      while requests remain, re-claims the last one. */
  lemma FinishShape(p: Pool, i: nat, o: Outcome)
    requires i < |p.slots| && p.slots[i].Busy?
    ensures |p.queue| > 0 ==>
      && Finish(p, i, o).slots == p.slots[i := Idle][i := Occupy(p.queue[|p.queue| - 1])]
      && Finish(p, i, o).claimed == [p.queue[|p.queue| - 1]] + p.claimed
    ensures |p.queue| == 0 ==> Finish(p, i, o).slots == p.slots[i := Idle] && Finish(p, i, o).claimed == p.claimed
  {
  }

  /** The balance of one re-claiming event: URL u leaves the slots, the popped url joins both slots and claims (`FinishInFlight`). */
  lemma Exchange(before: multiset<string>, between: multiset<string>, after: multiset<string>,
                 u: string, url: string, claimed: multiset<string>)
    requires between + multiset{u} == before
    requires after == between + multiset{url}
    ensures after + multiset{u} + claimed == before + (multiset{url} + claimed)
  {
    forall x
      ensures (after + multiset{u} + claimed)[x] == (before + (multiset{url} + claimed))[x]
    {
      assert (between + multiset{u})[x] == before[x];
    }
  }

  /** With non-empty URLs, one event finishes exactly one pending request. */
  lemma FinishPending(p: Pool, original: seq<string>, i: nat, o: Outcome)
    requires Consistent(p, original) && NonEmpty(original) && NoStall(p)
    requires i < |p.slots| && p.slots[i].Busy?
    ensures NoStall(Finish(p, i, o))
    ensures Pending(Finish(p, i, o)) + 1 == Pending(p)
  {
    var q := Finish(p, i, o);
    var idle := p.slots[i := Idle];
    FinishShape(p, i, o);
    BusyCountUpdate(p.slots, i, Idle);
    if |p.queue| > 0 {
      var n := |p.queue| - 1;
      assert p.queue[n] == original[n];
      BusyCountUpdate(idle, i, Busy(p.queue[n]));
    }
  }

  /** With non-empty URLs, the finished URL leaves the in-flight set and any
      re-claimed one joins it. */
  lemma FinishInFlight(p: Pool, original: seq<string>, i: nat, o: Outcome)
    requires Consistent(p, original) && NonEmpty(original)
    requires i < |p.slots| && p.slots[i].Busy?
    ensures InFlight(Finish(p, i, o).slots) + multiset{p.slots[i].url} + multiset(p.claimed)
         == InFlight(p.slots) + multiset(Finish(p, i, o).claimed)
  {
    var q := Finish(p, i, o);
    var idle := p.slots[i := Idle];
    FinishShape(p, i, o);
    InFlightUpdate(p.slots, i, Idle);
    if |p.queue| > 0 {
      var n := |p.queue| - 1;
      var url := p.queue[n];
      assert url == original[n];
      InFlightUpdate(idle, i, Busy(url));
      assert multiset(q.claimed) == multiset{url} + multiset(p.claimed);
      Exchange(InFlight(p.slots), InFlight(idle), InFlight(q.slots), p.slots[i].url, url, multiset(p.claimed));
    }
  }

  /** Any run keeps the invariant. */
  lemma {:induction false} RunConsistent(p: Pool, original: seq<string>, events: seq<Event>)
    requires Consistent(p, original)
    requires Run(p, events).Some?
    ensures Consistent(Run(p, events).value, original)
    decreases |events|
  {
    if |events| > 0 {
      FinishConsistent(p, original, events[0].slot, events[0].outcome);
      RunConsistent(Finish(p, events[0].slot, events[0].outcome), original, events[1..]);
    }
  }

  /** Over any run the buffer grows by the 200 bodies, whole, in completion order. */
  lemma {:induction false} RunBuffer(p: Pool, events: seq<Event>)
    requires Run(p, events).Some?
    ensures Bytes(Run(p, events).value.buffer) == Bytes(p.buffer) + Delivered(events)
    decreases |events|
  {
    if |events| > 0 {
      var q := Finish(p, events[0].slot, events[0].outcome);
      var c := Contribution(events[0].outcome);
      assert Run(p, events) == Run(q, events[1..]);
      assert Delivered(events) == c + Delivered(events[1..]);
      RunBuffer(q, events[1..]);
      Regroup(Bytes(p.buffer), c, Delivered(events[1..]), Bytes(q.buffer), Bytes(Run(q, events[1..]).value.buffer));
    }
  }

  /** Growing a buffer by c and then by d grows it by c + d. */
  lemma Regroup(a: seq<byte>, c: seq<byte>, d: seq<byte>, b: seq<byte>, r: seq<byte>)
    requires b == a + c && r == b + d
    ensures r == a + (c + d)
  {
  }

  /** With non-empty URLs every event finishes one pending request. */
  lemma {:induction false} RunPending(p: Pool, original: seq<string>, events: seq<Event>)
    requires Consistent(p, original) && NonEmpty(original) && NoStall(p)
    requires Run(p, events).Some?
    ensures NoStall(Run(p, events).value)
    ensures Pending(Run(p, events).value) + |events| == Pending(p)
    decreases |events|
  {
    if |events| > 0 {
      var e := events[0];
      FinishConsistent(p, original, e.slot, e.outcome);
      FinishPending(p, original, e.slot, e.outcome);
      RunPending(Finish(p, e.slot, e.outcome), original, events[1..]);
    }
  }

  /** Chaining one event's balance with the rest of the run's (`RunInFlight`). */
  lemma Chain(a: multiset<string>, s: multiset<string>, cq: multiset<string>, iq: multiset<string>,
              cr: multiset<string>, ip: multiset<string>, cp: multiset<string>, u: multiset<string>)
    requires a + s + cq == iq + cr
    requires iq + u + cp == ip + cq
    ensures a + (u + s) + cp == ip + cr
  {
    forall x
      ensures (a + (u + s) + cp)[x] == (ip + cr)[x]
    {
      assert (a + s + cq)[x] == (iq + cr)[x];
      assert (iq + u + cp)[x] == (ip + cq)[x];
    }
  }

  /** With non-empty URLs the URLs finished over a run, together with those
      still in flight, are exactly the URLs claimed. */
  lemma {:induction false} RunInFlight(p: Pool, original: seq<string>, events: seq<Event>)
    requires Consistent(p, original) && NonEmpty(original)
    requires Run(p, events).Some?
    ensures InFlight(Run(p, events).value.slots) + multiset(Served(p, events)) + multiset(p.claimed)
         == InFlight(p.slots) + multiset(Run(p, events).value.claimed)
    decreases |events|
  {
    if |events| == 0 {
      assert Served(p, events) == [];
    } else {
      var e := events[0];
      var q := Finish(p, e.slot, e.outcome);
      var r := Run(p, events).value;
      var u := p.slots[e.slot].url;
      FinishConsistent(p, original, e.slot, e.outcome);
      FinishInFlight(p, original, e.slot, e.outcome);
      RunInFlight(q, original, events[1..]);
      assert Served(p, events) == [u] + Served(q, events[1..]);
      assert multiset(Served(p, events)) == multiset{u} + multiset(Served(q, events[1..]));
      Chain(InFlight(r.slots), multiset(Served(q, events[1..])), multiset(q.claimed), InFlight(q.slots),
            multiset(r.claimed), InFlight(p.slots), multiset(p.claimed), multiset{u});
    }
  }

  /** Once the reply is sent no slot has a fetch in flight, so no further
      event can happen and the reply is never sent again. */
  lemma {:induction false} ReplyIsFinal(p: Pool, original: seq<string>, events: seq<Event>)
    requires Consistent(p, original) && p.reply.Some?
    ensures Run(p, events).Some? <==> events == []
  {
    if |events| > 0 {
      var e := events[0];
      if e.slot < |p.slots| {
        assert p.slots[e.slot].Idle?;
      }
    }
  }

  /** A run on the routed requests has at most one event per request, and the
      reply is sent exactly when every request has finished. */
  lemma Completion(original: seq<string>, events: seq<Event>)
    requires NonEmpty(original)
    requires Run(Start(original), events).Some?
    ensures |events| <= |original|
    ensures Run(Start(original), events).value.reply.Some? <==> 0 < |events| == |original|
  {
    StartConsistent(original);
    StartFetching(original);
    RunCompletes(Start(original), original, events);
  }

  /** From any consistent pool with every routed request pending, a run has at
      most one event per request and replies exactly when all have finished. */
  lemma RunCompletes(p: Pool, original: seq<string>, events: seq<Event>)
    requires Consistent(p, original) && NonEmpty(original) && NoStall(p)
    requires Pending(p) == |original| && p.reply.None?
    requires Run(p, events).Some?
    ensures |events| <= |original|
    ensures Run(p, events).value.reply.Some? <==> 0 < |events| == |original|
  {
    var q := Run(p, events).value;
    RunConsistent(p, original, events);
    RunPending(p, original, events);
    if q.reply.Some? {
      AllIdleNotBusy(q.slots);
    }
    if |events| == |original| {
      NothingBusyIsIdle(q.slots);
    }
  }

  /** Once the reply is sent it is 204 when no 200 response carried bytes, and
      otherwise all those bytes, each body whole, in completion order. */
  lemma CompletionReply(original: seq<string>, events: seq<Event>)
    requires Run(Start(original), events).Some?
    requires Run(Start(original), events).value.reply.Some?
    ensures Run(Start(original), events).value.reply.value
        == (if Delivered(events) == [] then NO_CONTENT else Mseed(Delivered(events)))
  {
    StartConsistent(original);
    RunReply(Start(original), original, events);
  }

  /** From a consistent pool with nothing buffered, a run that replied sends 204
      or exactly the delivered bytes. */
  lemma RunReply(p: Pool, original: seq<string>, events: seq<Event>)
    requires Consistent(p, original) && p.buffer.None?
    requires Run(p, events).Some? && Run(p, events).value.reply.Some?
    ensures Run(p, events).value.reply.value
        == (if Delivered(events) == [] then NO_CONTENT else Mseed(Delivered(events)))
  {
    var q := Run(p, events).value;
    RunConsistent(p, original, events);
    RunBufferFromEmpty(p, events);
    ReplyOfBytes(q, original, Delivered(events));
  }

  /** Starting with nothing buffered, a run buffers exactly the delivered bytes. */
  lemma RunBufferFromEmpty(p: Pool, events: seq<Event>)
    requires p.buffer.None? && Run(p, events).Some?
    ensures Bytes(Run(p, events).value.buffer) == Delivered(events)
  {
    RunBuffer(p, events);
    assert [] + Delivered(events) == Delivered(events);
  }

  /** A sent reply carries the buffer's bytes, or is 204 when there are none. */
  lemma ReplyOfBytes(q: Pool, original: seq<string>, bytes: seq<byte>)
    requires Consistent(q, original) && q.reply.Some?
    requires Bytes(q.buffer) == bytes
    ensures q.reply.value == (if bytes == [] then NO_CONTENT else Mseed(bytes))
  {
    ReplyOfBuffer(q, original);
  }

  /** A sent reply is 204 exactly when the buffer holds no bytes. */
  lemma ReplyOfBuffer(p: Pool, original: seq<string>)
    requires Consistent(p, original) && p.reply.Some?
    ensures p.reply.value == (if Bytes(p.buffer) == [] then NO_CONTENT else Mseed(Bytes(p.buffer)))
  {
  }

  /** Once the reply is sent every routed request has been claimed, and
      fetched, exactly once. */
  lemma CompletionServed(original: seq<string>, events: seq<Event>)
    requires NonEmpty(original)
    requires Run(Start(original), events).Some?
    requires Run(Start(original), events).value.reply.Some?
    ensures Run(Start(original), events).value.claimed == original
    ensures multiset(Served(Start(original), events)) == multiset(original)
  {
    StartConsistent(original);
    StartFetching(original);
    RunServed(Start(original), original, events);
  }

  /** From a consistent pool whose in-flight URLs are its claims, a run that
      replied has claimed and finished every routed request exactly once. */
  lemma RunServed(p: Pool, original: seq<string>, events: seq<Event>)
    requires Consistent(p, original) && NonEmpty(original) && NoStall(p)
    requires InFlight(p.slots) == multiset(p.claimed)
    requires Run(p, events).Some? && Run(p, events).value.reply.Some?
    ensures Run(p, events).value.claimed == original
    ensures multiset(Served(p, events)) == multiset(original)
  {
    var q := Run(p, events).value;
    RunConsistent(p, original, events);
    RunPending(p, original, events);
    RunInFlight(p, original, events);
    Done(q, original);
    Cancel(multiset(Served(p, events)), multiset(p.claimed), multiset(original));
  }

  /** A pool that has replied has claimed everything and has nothing in flight. */
  lemma Done(q: Pool, original: seq<string>)
    requires Consistent(q, original) && q.reply.Some?
    ensures q.claimed == original
    ensures InFlight(q.slots) == multiset{}
  {
    forall j | 0 <= j < |q.slots|
      ensures !q.slots[j].Stalled?
    {
      assert q.slots[j].Idle?;
    }
    AllIdleNotBusy(q.slots);
    NothingBusyIsIdle(q.slots);
  }

  /** Idle slots have no fetch in flight. */
  lemma {:induction false} AllIdleNotBusy(slots: seq<Slot>)
    requires AllIdle(slots)
    ensures BusyCount(slots) == 0
    decreases |slots|
  {
    if |slots| > 0 {
      AllIdleNotBusy(slots[..|slots| - 1]);
    }
  }

  /** Cancelling the claimed URLs from both sides leaves the served URLs equal to the list (`RunServed`). */
  lemma Cancel(served: multiset<string>, claimed: multiset<string>, all: multiset<string>)
    requires multiset{} + served + claimed == claimed + all
    ensures served == all
  {
    forall x
      ensures served[x] == all[x]
    {
      assert (multiset{} + served + claimed)[x] == (claimed + all)[x];
    }
  }

  /** With no routed requests the pool opens no slot, so no event can happen
      and no reply is ever sent. */
  lemma NoRequestsNeverReply(events: seq<Event>)
    requires Run(Start([]), events).Some?
    ensures Start([]).slots == []
    ensures events == [] && Run(Start([]), events).value.reply.None?
  {
  }

  /** The source's run ends where the corrected run ends unless it crashes,
      and it can crash only on a 200 response without a body. */
  lemma {:induction false} RunAsWrittenAgrees(p: Pool, events: seq<Event>)
    ensures RunAsWritten(p, events).Reached? ==> Run(p, events) == Some(RunAsWritten(p, events).pool)
    ensures RunAsWritten(p, events).Invalid? ==> Run(p, events).None?
    ensures Run(p, events).Some? && !RunAsWritten(p, events).Crashed? ==>
      RunAsWritten(p, events) == Reached(Run(p, events).value)
    ensures RunAsWritten(p, events).Crashed? ==> !NoEmptyOk(events)
    decreases |events|
  {
    if |events| > 0 && Enabled(p, events[0]) {
      var e := events[0];
      match FinishAsWritten(p, e.slot, e.outcome)
      case None =>
        assert !NoEmptyOk(events) by {
          assert Throws(p.buffer, events[0].outcome);
        }
      case Some(q) =>
        RunAsWrittenAgrees(q, events[1..]);
        if RunAsWritten(p, events).Crashed? {
          var k :| 0 <= k < |events[1..]| && EmptyOk(events[1..][k].outcome);
          assert events[1..][k] == events[k + 1];
        }
    }
  }

  /** Without bodiless 200 responses the source's run reaches exactly the
      corrected run's pool, so every result about `Run` holds for the source. */
  lemma NoEmptyOkAgrees(p: Pool, events: seq<Event>)
    requires NoEmptyOk(events) && Run(p, events).Some?
    ensures RunAsWritten(p, events) == Reached(Run(p, events).value)
  {
    RunAsWrittenAgrees(p, events);
  }

  /** A crash is final: no later event, and so no reply, follows it. */
  lemma {:induction false} CrashIsFinal(p: Pool, events: seq<Event>, more: seq<Event>)
    requires RunAsWritten(p, events).Crashed?
    ensures RunAsWritten(p, events + more).Crashed?
    decreases |events|
  {
    var e := events[0];
    assert (events + more)[0] == e;
    assert Enabled(p, e);
    var r := FinishAsWritten(p, e.slot, e.outcome);
    if r.Some? {
      assert (events + more)[1..] == events[1..] + more;
      CrashIsFinal(r.value, events[1..], more);
    }
  }

  /** Two requests; the first to finish answers 200 with one byte, the second
      200 with no body: the corrected pool replies with that byte, while the
      source throws inside the second callback and never replies. */
  lemma EmptyOkBodyCrashes()
    ensures var events := [Event(0, Completed(200, [[0x01]])), Event(1, Completed(200, []))];
      && Run(Start(["u", "v"]), events).Some?
      && Run(Start(["u", "v"]), events).value.reply == Some(Mseed([0x01]))
      && RunAsWritten(Start(["u", "v"]), events).Crashed?
  {
    var p := Start(["u", "v"]);
    var events := [Event(0, Completed(200, [[0x01]])), Event(1, Completed(200, []))];
    assert p.slots[0] == Busy("v") && p.slots[1] == Busy("u");
    var p1 := Finish(p, 0, events[0].outcome);
    assert p1.buffer == Some([0x01]);
    assert p1.slots[1].Busy?;
    assert Run(p, events) == Run(p1, events[1..]);
    assert FinishAsWritten(p1, 1, events[1].outcome).None?;
  }
}

=== FILE: replies.dfy ===
/** What the collector answers its client with, and the fixed texts it uses. */
module Replies {
  import opened Common

  type byte = bv8

  /** A reply body: none (`res.end()`), a diagnostic text (`res.send(string)`),
      or binary data (`res.send(buffer)`). */
  datatype Body = NoBody | Text(text: string) | Binary(bytes: seq<byte>)

  /** An HTTP reply; `contentType` is the header the handler sets explicitly
      (None leaves Express's default in place). */
  datatype Reply = Reply(status: int, contentType: Option<string>, body: Body)

  const START_INVALID: string := "Start time is invalid."
  const END_INVALID: string := "End time is invalid."
  const ROUTING_FAILED: string := "Could not fetch request info: "
  const MSEED: string := "application/vnd.fdsn.mseed"

  /** `res.status(204).end()`. */
  const NO_CONTENT: Reply := Reply(204, None, NoBody)

  /** `res.status(400).send(message)`. */
  function BadRequest(message: string): Reply {
    Reply(400, None, Text(message))
  }

  /** `res.setHeader('Content-Type', MSEED); res.status(200).send(bytes)`. */
  function Mseed(bytes: seq<byte>): Reply {
    Reply(200, Some(MSEED), Binary(bytes))
  }
}

=== FILE: routing.dfy ===
/** Expansion of the decoded routing document into a flat list of backend
    request URLs, one per channel selector. */
module Routing {
  import opened Text

  /** One `params` record of a datacenter: network, station, location, channel. */
  datatype Selector = Selector(net: string, sta: string, loc: string, cha: string)

  /** One `datacenter` of the routing document: a base URL and its selectors. */
  datatype Datacenter = Datacenter(url: string, params: seq<Selector>)

  /** The backend URL for one selector, with the client's raw start and end strings. */
  function RequestUrl(base: string, sel: Selector, start: string, end: string): string {
    base + "?net=" + sel.net + "&sta=" + sel.sta + "&loc=" + sel.loc + "&cha=" + sel.cha
      + "&start=" + start + "&end=" + end
  }

  /** The `&`-separated pieces a backend reads out of a request URL. */
  function QueryPieces(base: string, sel: Selector, start: string, end: string): seq<string> {
    [base + "?net=" + sel.net, "sta=" + sel.sta, "loc=" + sel.loc, "cha=" + sel.cha,
     "start=" + start, "end=" + end]
  }

  /** Gluing a `&`-prefixed key onto a string is appending `&` and then the key. */
  lemma Glue(prefix: string, amp: string, key: string, value: string)
    requires amp == ['&'] + key
    ensures prefix + amp + value == prefix + ['&'] + (key + value)
  {
  }

  /** A request URL starts with its base URL, is never empty, and carries the
      six fields as its `&`-separated pieces. */
  lemma RequestUrlShape(base: string, sel: Selector, start: string, end: string)
    ensures |RequestUrl(base, sel, start, end)| > |base|
    ensures RequestUrl(base, sel, start, end)[..|base|] == base
    ensures RequestUrl(base, sel, start, end) == Join(QueryPieces(base, sel, start, end), '&')
  {
    var ps := QueryPieces(base, sel, start, end);
    var p1 := base + "?net=" + sel.net;
    var p2 := p1 + "&sta=" + sel.sta;
    var p3 := p2 + "&loc=" + sel.loc;
    var p4 := p3 + "&cha=" + sel.cha;
    var p5 := p4 + "&start=" + start;
    var p6 := p5 + "&end=" + end;
    assert p6 == RequestUrl(base, sel, start, end);
    assert Join(ps[..1], '&') == p1;
    assert Join(ps[..2], '&') == p2 by {
      assert ps[..2] == ps[..1] + [ps[1]];
      JoinSnoc(ps[..1], ps[1], '&');
      Glue(p1, "&sta=", "sta=", sel.sta);
    }
    assert Join(ps[..3], '&') == p3 by {
      assert ps[..3] == ps[..2] + [ps[2]];
      JoinSnoc(ps[..2], ps[2], '&');
      Glue(p2, "&loc=", "loc=", sel.loc);
    }
    assert Join(ps[..4], '&') == p4 by {
      assert ps[..4] == ps[..3] + [ps[3]];
      JoinSnoc(ps[..3], ps[3], '&');
      Glue(p3, "&cha=", "cha=", sel.cha);
    }
    assert Join(ps[..5], '&') == p5 by {
      assert ps[..5] == ps[..4] + [ps[4]];
      JoinSnoc(ps[..4], ps[4], '&');
      Glue(p4, "&start=", "start=", start);
    }
    assert Join(ps, '&') == p6 by {
      assert ps == ps[..5] + [ps[5]];
      JoinSnoc(ps[..5], ps[5], '&');
      Glue(p5, "&end=", "end=", end);
    }
  }

  /** When no field contains `&`, splitting a request URL on `&` recovers
      exactly the base-and-network piece and the five other fields, in order. */
  lemma RequestUrlFields(base: string, sel: Selector, start: string, end: string)
    requires '&' !in base && '&' !in sel.net && '&' !in sel.sta && '&' !in sel.loc
    requires '&' !in sel.cha && '&' !in start && '&' !in end
    ensures Split(RequestUrl(base, sel, start, end), '&') == QueryPieces(base, sel, start, end)
  {
    var ps := QueryPieces(base, sel, start, end);
    RequestUrlShape(base, sel, start, end);
    forall k | 0 <= k < |ps|
      ensures '&' !in ps[k]
    {
    }
    SplitJoin(ps, '&');
  }

  /** The URLs of one datacenter, in parameter order. */
  function Row(dc: Datacenter, start: string, end: string): (urls: seq<string>)
    ensures |urls| == |dc.params|
  {
    seq(|dc.params|, j requires 0 <= j < |dc.params| => RequestUrl(dc.url, dc.params[j], start, end))
  }

  /** The number of selectors over all datacenters. */
  function TotalParams(dcs: seq<Datacenter>): nat
    decreases |dcs|
  {
    if |dcs| == 0 then 0 else TotalParams(dcs[..|dcs| - 1]) + |dcs[|dcs| - 1].params|
  }

  /** Where the URLs of datacenter `i` begin in the expansion. */
  function Offset(dcs: seq<Datacenter>, i: nat): nat
    requires i <= |dcs|
  {
    TotalParams(dcs[..i])
  }

  /** The whole expansion, datacenter-major and then by parameter index. */
  function Expand(dcs: seq<Datacenter>, start: string, end: string): (urls: seq<string>)
    ensures |urls| == TotalParams(dcs)
    decreases |dcs|
  {
    if |dcs| == 0 then []
    else Expand(dcs[..|dcs| - 1], start, end) + Row(dcs[|dcs| - 1], start, end)
  }

  /** Selector `j` of datacenter `i` yields the URL at position `Offset(dcs, i) + j`. */
  lemma {:induction false} ExpandAt(dcs: seq<Datacenter>, start: string, end: string, i: nat, j: nat)
    requires i < |dcs| && j < |dcs[i].params|
    ensures Offset(dcs, i) + j < |Expand(dcs, start, end)|
    ensures Expand(dcs, start, end)[Offset(dcs, i) + j] == RequestUrl(dcs[i].url, dcs[i].params[j], start, end)
    decreases |dcs|
  {
    var n := |dcs| - 1;
    var init := dcs[..n];
    if i == n {
      assert dcs[..i] == init;
    } else {
      assert init[..i] == dcs[..i];
      ExpandAt(init, start, end, i, j);
    }
  }

  /** Every position of the expansion comes from some selector of some datacenter. */
  lemma {:induction false} ExpandLocate(dcs: seq<Datacenter>, k: nat) returns (i: nat, j: nat)
    requires k < TotalParams(dcs)
    ensures i < |dcs| && j < |dcs[i].params|
    ensures k == Offset(dcs, i) + j
    decreases |dcs|
  {
    var n := |dcs| - 1;
    var init := dcs[..n];
    if k < TotalParams(init) {
      i, j := ExpandLocate(init, k);
      assert init[..i] == dcs[..i];
    } else {
      i, j := n, k - TotalParams(init);
      assert dcs[..i] == init;
    }
  }

  /** No generated URL is empty, so none is falsy when popped from the list. */
  lemma ExpandNonEmpty(dcs: seq<Datacenter>, start: string, end: string)
    ensures forall k | 0 <= k < |Expand(dcs, start, end)| :: Expand(dcs, start, end)[k] != ""
  {
    var urls := Expand(dcs, start, end);
    forall k | 0 <= k < |urls|
      ensures urls[k] != ""
    {
      var i, j := ExpandLocate(dcs, k);
      ExpandAt(dcs, start, end, i, j);
      RequestUrlShape(dcs[i].url, dcs[i].params[j], start, end);
    }
  }

  /** The nested loop that collects the requests, datacenter by datacenter. */
  method CollectRequests(dcs: seq<Datacenter>, start: string, end: string) returns (requests: seq<string>)
    ensures requests == Expand(dcs, start, end)
    ensures |requests| == TotalParams(dcs)
  {
    requests := [];
    var i := 0;
    while i < |dcs|
      invariant 0 <= i <= |dcs|
      invariant requests == Expand(dcs[..i], start, end)
    {
      var datacenter := dcs[i];
      var j := 0;
      while j < |datacenter.params|
        invariant 0 <= j <= |datacenter.params|
        invariant requests == Expand(dcs[..i], start, end) + Row(datacenter, start, end)[..j]
      {
        requests := requests + [RequestUrl(datacenter.url, datacenter.params[j], start, end)];
        j := j + 1;
      }
      assert dcs[..i + 1][..i] == dcs[..i];
      i := i + 1;
    }
    assert dcs[..i] == dcs;
  }
}

=== FILE: text.dfy ===
/** String searching and splitting. `Find` has the semantics of JavaScript's
    `indexOf`, which the collector uses on backend URLs; `Split` and `Join` on
    one character show how a backend reads a request's query back. */
module Text {
  import opened Common

  /** `pat` occurs in `s` starting at index `k`. */
  predicate Occurs(s: string, pat: string, k: int) {
    0 <= k && k + |pat| <= |s| && s[k..k + |pat|] == pat
  }

  lemma OccursShift(s: string, pat: string)
    requires |s| > 0
    ensures forall k | 1 <= k :: Occurs(s, pat, k) <==> Occurs(s[1..], pat, k - 1)
  {
    forall k | 1 <= k
      ensures Occurs(s, pat, k) <==> Occurs(s[1..], pat, k - 1)
    {
      if k + |pat| <= |s| {
        assert s[1..][k - 1..k - 1 + |pat|] == s[k..k + |pat|];
      }
    }
  }

  /** `s.indexOf(pat)`: the first index at which `pat` occurs, if any. */
  function Find(s: string, pat: string): (r: Option<nat>)
    ensures r.Some? ==> Occurs(s, pat, r.value)
    ensures r.Some? ==> forall k | 0 <= k < r.value :: !Occurs(s, pat, k)
    ensures r.None? ==> forall k :: !Occurs(s, pat, k)
    decreases |s|
  {
    if |s| < |pat| then None
    else if s[..|pat|] == pat then Some(0)
    else
      OccursShift(s, pat);
      match Find(s[1..], pat)
      case None => None
      case Some(k) => Some(k + 1)
  }

  /** Searching for a one-character pattern finds the first index of that character. */
  lemma FindChar(s: string, c: char)
    ensures Find(s, [c]).None? <==> c !in s
    ensures Find(s, [c]).Some? ==>
      var k := Find(s, [c]).value; k < |s| && s[k] == c && c !in s[..k]
  {
    match Find(s, [c])
    case None =>
      forall k | 0 <= k < |s|
        ensures s[k] != c
      {
        assert !Occurs(s, [c], k);
        assert s[k..k + 1] == [s[k]];
      }
    case Some(k) =>
      assert s[k..k + 1] == [s[k]];
      forall j | 0 <= j < k
        ensures s[..k][j] != c
      {
        assert !Occurs(s, [c], j);
        assert s[j..j + 1] == [s[j]];
      }
  }

  /** The first occurrence of a character that `a` does not contain, in `a + [c] + b`. */
  lemma FindCharAfter(a: string, c: char, b: string)
    requires c !in a
    ensures Find(a + [c] + b, [c]) == Some(|a|)
  {
    var s := a + [c] + b;
    FindChar(s, c);
    assert s[|a|] == c;
    forall j | 0 <= j < |a|
      ensures s[j] != c
    {
      assert s[j] == a[j];
    }
  }

  /** `s.split(sep)` for a one-character separator: the maximal pieces between separators. */
  function Split(s: string, sep: char): (parts: seq<string>)
    ensures |parts| > 0
    ensures forall k | 0 <= k < |parts| :: sep !in parts[k]
    decreases |s|
  {
    FindChar(s, sep);
    match Find(s, [sep])
    case None => [s]
    case Some(k) => [s[..k]] + Split(s[k + 1..], sep)
  }

  /** `parts.join(sep)`. */
  function Join(parts: seq<string>, sep: char): string
    decreases |parts|
  {
    if |parts| == 0 then ""
    else if |parts| == 1 then parts[0]
    else parts[0] + [sep] + Join(parts[1..], sep)
  }

  /** Joining one more piece appends the separator and that piece. */
  lemma {:induction false} JoinSnoc(parts: seq<string>, last: string, sep: char)
    requires |parts| > 0
    ensures Join(parts + [last], sep) == Join(parts, sep) + [sep] + last
    decreases |parts|
  {
    if |parts| > 1 {
      assert (parts + [last])[1..] == parts[1..] + [last];
      JoinSnoc(parts[1..], last, sep);
    }
  }

  /** Joining the pieces of a split gives back the string. */
  lemma {:induction false} JoinSplit(s: string, sep: char)
    ensures Join(Split(s, sep), sep) == s
    decreases |s|
  {
    FindChar(s, sep);
    match Find(s, [sep])
    case None =>
    case Some(k) =>
      var rest := Split(s[k + 1..], sep);
      JoinSplit(s[k + 1..], sep);
      assert Split(s, sep) == [s[..k]] + rest;
      assert ([s[..k]] + rest)[1..] == rest;
      assert s == s[..k] + [sep] + s[k + 1..];
  }

  /** Splitting a join of separator-free pieces recovers the pieces. */
  lemma {:induction false} SplitJoin(parts: seq<string>, sep: char)
    requires |parts| > 0
    requires forall k | 0 <= k < |parts| :: sep !in parts[k]
    ensures Split(Join(parts, sep), sep) == parts
    decreases |parts|
  {
    if |parts| == 1 {
      FindChar(parts[0], sep);
    } else {
      var tail := Join(parts[1..], sep);
      FindCharAfter(parts[0], sep, tail);
      var s := parts[0] + [sep] + tail;
      assert s[..|parts[0]|] == parts[0];
      assert s[|parts[0]| + 1..] == tail;
      SplitJoin(parts[1..], sep);
      assert parts == [parts[0]] + parts[1..];
    }
  }
}

=== FILE: urls.dfy ===
/** `parseUrl`: splitting a backend URL into the host and path handed to `http.get`. */
module Urls {
  import opened Common
  import opened Text
  import Routing

  const SCHEME: string := "http://"

  /** Host and path of a backend request. */
  datatype Target = Target(host: string, path: string)

  /** `url.split("http://")[1]`: the text after the first "http://", up to the
      next "http://" if there is one; absent when "http://" does not occur.
      The value starts right after the first "http://" and ends either at the
      end of the URL or where the next "http://" begins. */
  function AfterScheme(url: string): (r: Option<string>)
    ensures r.None? <==> Find(url, SCHEME).None?
    ensures r.Some? ==> Find(r.value, SCHEME).None?
    ensures r.Some? ==>
      var k := Find(url, SCHEME).value;
      && r.value <= url[k + |SCHEME|..]
      && (k + |SCHEME| + |r.value| == |url| || Find(url[k + |SCHEME|..], SCHEME) == Some(|r.value|))
  {
    match Find(url, SCHEME)
    case None => None
    case Some(k) =>
      Some(UpToScheme(url[k + |SCHEME|..]))
  }

  /** A text up to the first "http://" in it, or all of it when there is none. */
  function UpToScheme(rest: string): (r: string)
    ensures r <= rest
    ensures Find(r, SCHEME).None?
    ensures |r| == |rest| || Find(rest, SCHEME) == Some(|r|)
  {
    match Find(rest, SCHEME)
    case None => rest
    case Some(m) =>
      FirstOccurrenceIsFirst(rest, m);
      rest[..m]
  }

  /** Cutting a string just before the first occurrence of a pattern leaves no occurrence. */
  lemma FirstOccurrenceIsFirst(s: string, m: nat)
    requires Find(s, SCHEME) == Some(m)
    ensures Find(s[..m], SCHEME).None?
  {
    match Find(s[..m], SCHEME)
    case None =>
    case Some(j) =>
      assert s[..m][j..j + |SCHEME|] == s[j..j + |SCHEME|];
      assert Occurs(s, SCHEME, j);
  }

  /** The URL's host and path. When the text after the scheme has no "/",
      `indexOf` yields -1, `substring(-1)` keeps the whole text as the path and
      `substring(0, -1)` leaves the host empty. Absent where the source's
      `host.substring` would throw because "http://" does not occur. */
  function ParseUrl(url: string): (r: Option<Target>)
    ensures r.None? <==> Find(url, SCHEME).None?
    ensures r.Some? ==> AfterScheme(url) == Some(r.value.host + r.value.path)
    ensures r.Some? ==> '/' !in r.value.host
    ensures r.Some? && '/' in r.value.path ==> r.value.path[0] == '/'
    ensures r.Some? && '/' !in r.value.path ==> r.value.host == ""
  {
    match AfterScheme(url)
    case None => None
    case Some(rest) =>
      FindChar(rest, '/');
      match Find(rest, "/")
      case None =>
        assert "" + rest == rest;
        Some(Target("", rest))
      case Some(k) =>
        assert rest == rest[..k] + rest[k..];
        Some(Target(rest[..k], rest[k..]))
  }

  /** A host and path: the host holds no "/", and the path starts with "/"
      unless it holds none, in which case the host is empty. */
  predicate WellSplit(t: Target) {
    && '/' !in t.host
    && ('/' in t.path ==> t.path[0] == '/')
    && ('/' !in t.path ==> t.host == "")
  }

  /** A "/" in the second part is a "/" in the whole. */
  lemma SlashInText(a: string, b: string)
    requires '/' in b
    ensures '/' in a + b
  {
    var j :| 0 <= j < |b| && b[j] == '/';
    assert (a + b)[|a| + j] == '/';
  }

  /** A "/" in the whole that is not in the first part is in the second. */
  lemma SlashInPath(a: string, b: string)
    requires '/' in a + b && '/' !in a
    ensures '/' in b
  {
    var j :| 0 <= j < |a + b| && (a + b)[j] == '/';
    assert b[j - |a|] == '/';
  }

  /** Two well-split readings of one text agree on whether the path holds a "/". */
  lemma SlashMoves(t: Target, u: Target)
    requires WellSplit(t) && WellSplit(u)
    requires t.host + t.path == u.host + u.path
    ensures '/' in t.path ==> '/' in u.path
  {
    if '/' in t.path {
      SlashInText(t.host, t.path);
      SlashInPath(u.host, u.path);
    }
  }

  /** A text has at most one well-split reading as host followed by path. */
  lemma WellSplitUnique(t: Target, u: Target)
    requires WellSplit(t) && WellSplit(u)
    requires t.host + t.path == u.host + u.path
    ensures t == u
  {
    var s := t.host + t.path;
    SlashMoves(t, u);
    SlashMoves(u, t);
    if '/' in t.path {
      assert t.host == s[..|t.host|];
      assert u.host == s[..|u.host|];
    } else {
      assert s == t.path;
      assert s == u.path;
    }
  }

  /** The contract of `ParseUrl` leaves no choice: the only well-split host
      and path that rebuild the text after "http://" are the ones it returns. */
  lemma ParseUrlUnique(url: string, t: Target)
    requires AfterScheme(url) == Some(t.host + t.path)
    requires WellSplit(t)
    ensures ParseUrl(url) == Some(t)
  {
    WellSplitUnique(t, ParseUrl(url).value);
  }

  /** Behind a leading "http://", with no further "http://", the whole rest is
      `split("http://")[1]`. */
  lemma AfterLeadingScheme(rest: string)
    requires Find(rest, SCHEME).None?
    ensures AfterScheme(SCHEME + rest) == Some(rest)
  {
    var url := SCHEME + rest;
    assert url[..|SCHEME|] == SCHEME;
    assert Find(url, SCHEME) == Some(0);
    assert url[|SCHEME|..] == rest;
  }

  /** For "http://" followed by a slash-free host and a path starting with "/",
      with no further "http://" in them, the parts come back unchanged. */
  lemma ParseUrlRoundTrip(host: string, path: string)
    requires '/' !in host
    requires |path| > 0 && path[0] == '/'
    requires Find(host + path, SCHEME).None?
    ensures ParseUrl(SCHEME + host + path) == Some(Target(host, path))
  {
    assert SCHEME + host + path == SCHEME + (host + path);
    AfterLeadingScheme(host + path);
    assert WellSplit(Target(host, path));
    ParseUrlUnique(SCHEME + host + path, Target(host, path));
  }

  /** A URL built from a base "http://host/path" reaches that host, with the
      base's path followed by the query as the request path. */
  lemma ParseRequestUrl(host: string, path: string, sel: Routing.Selector, start: string, end: string)
    requires '/' !in host
    requires |path| > 0 && path[0] == '/'
    requires Find(Routing.RequestUrl(SCHEME + host + path, sel, start, end)[|SCHEME|..], SCHEME).None?
    ensures var url := Routing.RequestUrl(SCHEME + host + path, sel, start, end);
      ParseUrl(url) == Some(Target(host, url[|SCHEME| + |host|..]))
    ensures var url := Routing.RequestUrl(SCHEME + host + path, sel, start, end);
      url[|SCHEME| + |host|..][..|path|] == path
  {
    var base := SCHEME + host + path;
    var url := Routing.RequestUrl(base, sel, start, end);
    Routing.RequestUrlShape(base, sel, start, end);
    var tail := url[|SCHEME| + |host|..];
    assert url == url[..|base|] + url[|base|..];
    assert url == SCHEME + host + tail;
    assert url[|SCHEME|..] == host + tail;
    assert tail[..|path|] == path;
    ParseUrlRoundTrip(host, tail);
  }

  /** Without a "/" after the host the source sends an empty host and the
      host name as the path. */
  lemma ParseUrlWithoutPath(rest: string)
    requires '/' !in rest
    requires Find(rest, SCHEME).None?
    ensures ParseUrl(SCHEME + rest) == Some(Target("", rest))
  {
    AfterLeadingScheme(rest);
    assert "" + rest == rest;
    ParseUrlUnique(SCHEME + rest, Target("", rest));
  }
}
